=== FILE: README.md ===
# InterSIMPA core, modelled in Dafny

InterSIMPA explains one imputed peak of a sparse single-cell chromatin profile.
The single-cell peaks are turned into genomic bins, and the bin of the peak under
study is the candidate. A panel of bulk reference experiments for the same target
supplies the training data: for every reference, one row of 0/1 presence values
over the input bins, labelled by whether the reference holds the candidate bin.
A random forest is trained on this, and its feature importances rank the input
bins. Each ranked bin is annotated with the gene whose body it overlaps or,
failing that, the gene with the nearest transcription start site (TSS). The
result is two tables: a full table and a filtered display table.

The model follows the script's inline blocks, one module per concern:

- `Wrappers`: `Option` and `Result`.
- `PyText`: the Python string operations the argument handling relies on.
  These are `str.replace`, `str.split` on one character, and `int()` on a string.
- `Arguments`: the bin-size argument (`"5kb"`, `"500bp"`) and the summit argument (`"chr1:1000"`).
- `Orders`: strict orders on sequences, and the fact that a strict order fixes a sequence's arrangement.
- `Panel`: the reference store, the union of reference bins and the frequency index.
- `Features`: the training data for one candidate bin. This covers the sorted input bins without the
  candidate, the presence matrix, the labels, the all-ones query, and the guard that refuses
  to train on a label that is constant over the panel.
- `Ranking`: pairing columns with importances, and the stable sort from most to least important.
- `Genes`: the per-chromosome gene lists, the overlap search, the nearest-TSS search, the truncated
  midpoint and the strand-aware signed distances.
- `Report`: the full table, the display table, and the `Explain` method tying ranking and tables together.

The reference store is a map from accession to bin set. The panel is the sequence of
accessions of the selected metadata rows. Keeping both reproduces the dictionary
semantics of the script: the frequency counts dictionary entries (distinct
accessions) but divides by the number of metadata rows. Gene tables are a sequence
of rows. The per-column dictionaries keyed by gene id keep the last row of a repeated id.

Behaviours of the script that a reader might not expect:

- The bin size needs no unit. A bare number is read as bases. `"bp"` and `"kb"` are
  rewritten wherever they occur, and any other unit fails only because `int()` rejects it
  (`BinSizeWithoutUnit`, `BinSizeOtherUnit`).
- An empty reference panel is not rejected up front. It yields an empty frequency index, and
  only the classifier fit fails. The model reports that failure as `EmptyPanel`.
- The orientation column may hold values other than `plus` and `minus` (`Strand.Other`). Such
  a gene takes its end as TSS, as a minus-strand gene does, but its distances are not negated.
- If the panel repeats an accession, a bin held by every reference gets a frequency below 1
  (`RepeatedAccessionHalves`). The property lemmas about the index therefore assume distinct accessions.
- The script's message says an overlapping gene has distance 0 (line 161), but the 0 stored at line 182
  is never shown. `Dist TSS` is always the bin midpoint minus the TSS (lines 197-201), and the
  `--tssdist` cut-off tests that value, so a bin inside a gene body can be hidden
  (`OverlapDistanceFromMidpoint`, `OverlapRowCanBeHidden`). Likewise the message says
  "importance > 1%" (line 160), while the display keeps every row whose importance is at least
  the `--importance` threshold (line 212, `Report.Shown`).

## Model

| member | source | states |
|---|---|---|
| PyText.ReplaceAbsent | InterSIMPA.py:37 | `str.replace` leaves a string unchanged when it lacks one of the pattern's characters |
| PyText.ReplaceTrailing | InterSIMPA.py:37 | when the pattern's first character does not occur before it, the trailing occurrence is the only one replaced |
| PyText.Split | InterSIMPA.py:92-93 | `split` yields at least one piece and no piece contains the separator |
| PyText.SplitNoSeparator | InterSIMPA.py:92-93 | a string without the separator splits into itself alone |
| PyText.SplitFirst | InterSIMPA.py:92-93 | the text before the first separator is the first piece, and the rest splits on |
| PyText.ParseIntDigits | InterSIMPA.py:37 | `int()` of a decimal digit string is its decimal value |
| PyText.ParseIntShowNat | InterSIMPA.py:93 | `int()` reads back the decimal rendering of any natural number |
| PyText.ParseIntRejects | InterSIMPA.py:37 | in the model's ASCII-only `int()`, a non-digit, non-sign character between non-blank ends makes it fail |
| Arguments.BinSizeKilobases | InterSIMPA.py:37 | `"<digits>kb"` is the digits' value times 1000 |
| Arguments.BinSizeBases | InterSIMPA.py:37 | `"<digits>bp"` is the digits' value |
| Arguments.BinSizeWithoutUnit | InterSIMPA.py:37 | a bare digit string is accepted as a size in bases |
| Arguments.BinSizeOtherUnit | InterSIMPA.py:37 | a size with another unit (`mb`) is an error |
| Arguments.BinSizeKilobasesRoundTrip | InterSIMPA.py:37 | rendering n in kilobases and parsing gives n * 1000 |
| Arguments.BinSizeBasesRoundTrip | InterSIMPA.py:37 | rendering n in bases and parsing gives n |
| Arguments.ParseSummit | InterSIMPA.py:92-94 | a parsed summit is the one-base interval `[pos, pos + 1)` on a chromosome name without `:`; a summit without `:` is an error |
| Arguments.SummitRoundTrip | InterSIMPA.py:92-94 | `chrom:pos` parses back to `[pos, pos + 1)` on `chrom` |
| Arguments.SummitIgnoresLaterFields | InterSIMPA.py:92-93 | text after a second `:` does not change the result |
| Arguments.SummitBadPosition | InterSIMPA.py:93 | a position (without `:`) that `int()` rejects is reported as a bad position carrying `int()`'s error |
| Panel.AllRefBins | InterSIMPA.py:73-78 | the accumulated union holds exactly the bins present in some reference |
| Panel.CountIn | InterSIMPA.py:116 | the number of panel rows holding a bin never exceeds the panel size |
| Panel.FrequencyIndex | InterSIMPA.py:83-87 | the index has a key exactly for the bins present in some reference; absent bins get no entry |
| Panel.FrequencyBounds | InterSIMPA.py:83-87 | every index entry lies in (0, 1] |
| Panel.HoldersCountDistinct | InterSIMPA.py:85 | with distinct accessions, the dictionary count equals the number of rows holding the bin |
| Panel.CountInAll | InterSIMPA.py:85 | the count reaches the panel size exactly when every reference holds the bin |
| Panel.CountInSome | InterSIMPA.py:85 | the count is positive exactly when some reference holds the bin |
| Panel.FrequencyIsShare | InterSIMPA.py:84-87 | with distinct accessions, an entry is the count over the panel size |
| Panel.FrequencyOneIffEverywhere | InterSIMPA.py:84-87 | with distinct accessions, an entry is 1 exactly when every reference holds the bin |
| Panel.RepeatedAccessionHalves | InterSIMPA.py:74-86 | a panel listing one accession twice gives a bin held everywhere the frequency 0.5 |
| Features.InsertElements | InterSIMPA.py:61 | one insertion step of the sort adds exactly the inserted bin |
| Features.InsertAscending | InterSIMPA.py:61 | an insertion step keeps the sequence ascending, strictly so for a new bin |
| Features.SortBinsSorts | InterSIMPA.py:61 | `sorted` returns a permutation of its input in ascending order, strictly ascending when no bin repeats |
| Features.FirstIndex | InterSIMPA.py:106 | the position found holds the bin, and no earlier position does |
| Features.RemoveFirstAscending | InterSIMPA.py:106 | removing a bin from a strictly ascending list keeps it strictly ascending |
| Features.RemoveFirstMembers | InterSIMPA.py:106 | removing a bin from a strictly ascending list leaves exactly the other bins |
| Features.ColumnsOf | InterSIMPA.py:104-106 | the columns are exactly the input bins other than the candidate, strictly ascending; the presence flag is prior membership |
| Features.ColumnsIgnoreListingOrder | InterSIMPA.py:61 | the columns depend only on the set of input bins, not on the order it is listed in |
| Features.Row | InterSIMPA.py:111 | a matrix row has one entry per column, 1 exactly when the reference holds that column's bin |
| Features.FeatureMatrix | InterSIMPA.py:109-112 | the matrix has one row per panel row, each the presence row of that reference |
| Features.ColumnIsLabels | InterSIMPA.py:109-116 | column j of the matrix equals the label vector that column j's bin would get as candidate |
| Features.ColumnSumIsCount | InterSIMPA.py:109-111 | the number of 1 entries in column j is the number of references holding column j's bin |
| Features.Labels | InterSIMPA.py:116 | label i is 1 exactly when reference i holds the candidate bin, and 0 otherwise |
| Features.LabelSumIsCount | InterSIMPA.py:116-117 | the number of 1 labels is the number of references holding the candidate |
| Features.AllOnes | InterSIMPA.py:134 | the query row has the column count as width and every entry 1 |
| Features.ShareCuts | InterSIMPA.py:122-128 | a share that passes both cut-offs comes from a count strictly between 0 and the panel size; all gives 1.0, none gives 0.0 |
| Features.ShareInsideCuts | InterSIMPA.py:122-128 | below ten million references every count strictly between 0 and the panel size passes both cut-offs |
| Features.Prepare | InterSIMPA.py:104-134 | training data describe the columns, the 0/1 matrix (1 exactly where the reference holds the column bin), the 0/1 labels, the frequency and the query exactly; failures: empty panel iff no references, all-present gives 1.0, none-present gives 0.0, no columns only when every input bin is the candidate |
| Features.PrepareSucceedsIff | InterSIMPA.py:116-128 | below ten million references, training is reached exactly when some but not all references hold the candidate and another input bin exists |
| Features.LabelMeanMatchesIndex | InterSIMPA.py:116-117 | with distinct accessions the label mean is the candidate's frequency-index entry, or 0 when it has none |
| Ranking.Pair | InterSIMPA.py:139 | pair i is column i with its importance times 100; ascending columns give ascending pair bins |
| Ranking.InsertByImportanceElements | InterSIMPA.py:140 | one insertion step of the ranking adds exactly the inserted pair |
| Ranking.InsertByImportanceOrders | InterSIMPA.py:140 | an insertion step keeps importances non-increasing |
| Ranking.RankByImportanceSorts | InterSIMPA.py:140 | the ranking is a permutation of the pairs with non-increasing importance |
| Ranking.InsertKeepsRankOrder | InterSIMPA.py:140 | inserting a pair whose bin is below all others keeps importance-then-bin order |
| Ranking.RankingTiesKeepBinOrder | InterSIMPA.py:139-140 | over ascending columns, equal importances stay in ascending bin order (the sort is stable) |
| Ranking.RankingIsUnique | InterSIMPA.py:139-140 | the ranking is the only arrangement of the pairs in importance-then-bin order |
| Genes.Index | InterSIMPA.py:143-148 | every row's id has an entry, stored under its own id |
| Genes.IndexLastWins | InterSIMPA.py:143-148 | an id's entry is the last row carrying that id |
| Genes.LocOf | InterSIMPA.py:157-158 | the TSS is the start on the plus strand and the end otherwise |
| Genes.GenesOnSound | InterSIMPA.py:150-158 | every listed gene is on an allowed chromosome, on the list's chromosome, has both coordinates, and is its id's indexed row |
| Genes.GenesOnComplete | InterSIMPA.py:150-158 | every row whose indexed gene qualifies contributes that gene |
| Genes.GenesOnAppend | InterSIMPA.py:150-158 | the lists keep table order: the list of concatenated tables is the concatenation of the lists |
| Genes.FirstOverlap | InterSIMPA.py:179-184 | the result is the first gene whose body overlaps the bin, or none when no gene overlaps |
| Genes.FirstNearest | InterSIMPA.py:188-190 | the result is the first gene of least distance from its TSS to the nearer bin end |
| Genes.Midpoint | InterSIMPA.py:173 | the midpoint is half the coordinate sum, rounded toward zero |
| Genes.SignedDistances | InterSIMPA.py:195-201 | both distances are midpoint minus TSS/TTS, negated on the minus strand only; on plus and minus strands TSS distance minus TTS distance is the gene length |
| Genes.SignConventionExamples | InterSIMPA.py:195-201 | a plus gene with TSS 1000 and midpoint 1500, and a minus gene ending at 5000 with midpoint 4500, are both +500 |
| Genes.Annotate | InterSIMPA.py:175-201 | the first overlapping gene if one exists, else the first nearest-TSS gene, with its signed distances from the midpoint |
| Genes.OverlapDistanceFromMidpoint | InterSIMPA.py:179-201 | a bin inside a gene body gets the midpoint-to-TSS distance (52500 in the example), not the 0 the script's message promises |
| Report.OverlapRowCanBeHidden | InterSIMPA.py:208-210 | a row whose bin overlaps its gene is hidden by a TSS cut-off below its midpoint distance |
| Report.ShownRowsMembers | InterSIMPA.py:208-213 | the display rows are exactly the full-table rows passing both cut-offs |
| Report.ShownRowsAppend | InterSIMPA.py:203-218 | filtering keeps table order: the display of concatenated tables is the concatenation of the displays |
| Report.FullTable | InterSIMPA.py:203-206 | one row per ranked bin, in ranking order |
| Report.SplitTable | InterSIMPA.py:206-218 | the walk copies every row to the full table and the passing rows, in order, to the display table |
| Report.BuildTables | InterSIMPA.py:169-218 | the full table has each ranked bin's annotated row in ranking order; the display table is its filtered subsequence |
| Report.RankedBinsAreColumns | InterSIMPA.py:139-140 | every ranked bin is a training column |
| Report.Explain | InterSIMPA.py:139-218 | the ranking is a permutation of the pairs in importance-then-bin order, and the tables are built from it |

## Left out

- Argument parsing, path building, file reads and writes, and table printing are not modelled. These are `argparse`, `pd.read_csv`, `pickle.load`, the output file, and `AsciiTable`.
- Binning is not modelled: `pp.bin_it` and `pp.get_peaks` live in the separate `utils` package, outside InterSIMPA.py, and the script only calls them. The listed input bins, the candidate bin, and the bin regions (`bin_bed_map`) are parameters.
- The metadata filtering by assembly and target is not modelled. The panel is a given sequence of accessions.
- Loading a reference that fails is excluded by the `Loaded` precondition.
- The random forest is not modelled: fitting, `predict_proba`, and the imputed probability. Its importances are a parameter of `Report.Explain`, one real per column.
- The STRING co-expression lookup and the `gene_importance` map that feeds it (lines 219-259) are left out. They are display-only enrichment from external files.
- prepareREFbins.py is left out. It is a driver around the unseen binner, and its one piece of logic is the same bin-size parse.
- Panel.FrequencyIndex: values are exact rationals, so the script's floating-point division is not modelled.
- Features.Prepare: the label mean (`np.mean`, a float in the script) and the cut-offs 0.9999999 and 0.0000001 are exact reals, so float rounding of the mean is not modelled. With exact reals, `Features.ShareInsideCuts` shows every count strictly between none and all passes both cut-offs below ten million references.
- Features.Prepare: an empty panel is modelled as the error `EmptyPanel`. In the script, the mean of no labels is NaN, which passes both cut-offs, and the classifier then fails.
- Features.Prepare: a matrix with no columns is modelled as the error `NoFeatures`, where the classifier fails.
- Features.ColumnsOf: requires the listed input bins to be distinct, because they list a set.
- Genes.Midpoint: the mean is exact, not a float, so rounding of very large coordinates is not modelled.
- Genes.Annotate: requires a non-empty gene list. The script raises on an empty list, and bins whose chromosome has no listed gene are excluded by `Report.CanAnnotate`.
- Missing gene coordinates (NaN in the table) are modelled as `Option<int>`.
- Report.RowFor, the assembly of one report row, has no contract of its own. What it holds is stated by `Genes.Annotate`.
- PyText.ParseIntRejects: `int()` is modelled on ASCII digits and ASCII whitespace only. Python also accepts underscore separators between digits (`"1_0"`), non-ASCII decimal digits and non-ASCII whitespace, which the model rejects.
- Ranking.Pair: scaling importances to percent is exact, so float rounding of the product is not modelled.
- The per-reference bin counts (`ref_n_bins`, line 90) are computed but never used, so they are left out.
- The importance is shown in the table as text (`'%.2f%%'`); the model keeps the number.

=== FILE: arguments.dfy ===
/**
 The two command-line values the analysis derives numbers from: the bin size
 (`"5kb"`, `"500bp"`) and the peak summit of the candidate region (`"chr1:1000"`).
 */
module Arguments {
  import opened Wrappers
  import opened PyText

  /** The bin size: delete every `bp`, turn every `kb` into `000`, and read the
      rest with `int()`. No unit check is made beyond what `int()` rejects. */
  function ParseBinSize(s: string): Result<int, IntError> {
    ParseInt(Replace(Replace(s, "bp", ""), "kb", "000"))
  }

  /** `"<digits>kb"` is that many thousand bases. */
  lemma {:induction false} BinSizeKilobases(d: string)
    requires |d| > 0 && AllDigits(d)
    ensures ParseBinSize(d + "kb") == Ok(DigitsValue(d) * 1000)
  {
    assert 'p' !in d + "kb" by {
      forall i | 0 <= i < |d + "kb"| ensures (d + "kb")[i] != 'p' {
        if i < |d| { assert (d + "kb")[i] == d[i]; }
      }
    }
    ReplaceAbsent(d + "kb", "bp", "", 1);
    assert 'k' !in d by {
      forall i | 0 <= i < |d| ensures d[i] != 'k' { assert IsDigit(d[i]); }
    }
    ReplaceTrailing(d, "kb", "000");
    AppendThreeZeros(d);
    ParseIntDigits(d + "000");
  }

  lemma AppendThreeZeros(d: string)
    requires AllDigits(d)
    ensures AllDigits(d + "000") && DigitsValue(d + "000") == DigitsValue(d) * 1000
  {
    assert AllDigits("000");
    assert DigitsValue("000") == 0 by {
      assert "000"[..2] == "00";
      assert "00"[..1] == "0";
      assert "0"[..0] == "";
    }
    assert Pow10(3) == 1000;
    DigitsValueAppend(d, "000");
  }

  /** `"<digits>bp"` is that many bases. */
  lemma {:induction false} BinSizeBases(d: string)
    requires |d| > 0 && AllDigits(d)
    ensures ParseBinSize(d + "bp") == Ok(DigitsValue(d))
  {
    assert 'b' !in d && 'k' !in d by {
      forall i | 0 <= i < |d| ensures d[i] != 'b' && d[i] != 'k' { assert IsDigit(d[i]); }
    }
    ReplaceTrailing(d, "bp", "");
    assert d + "" == d;
    ReplaceAbsent(d, "kb", "000", 0);
    ParseIntDigits(d);
  }

  /** A bare digit string is read as bases: no unit is required. */
  lemma {:induction false} BinSizeWithoutUnit(d: string)
    requires |d| > 0 && AllDigits(d)
    ensures ParseBinSize(d) == Ok(DigitsValue(d))
  {
    assert 'b' !in d && 'k' !in d by {
      forall i | 0 <= i < |d| ensures d[i] != 'b' && d[i] != 'k' { assert IsDigit(d[i]); }
    }
    ReplaceAbsent(d, "bp", "", 0);
    ReplaceAbsent(d, "kb", "000", 0);
    ParseIntDigits(d);
  }

  /** Any other unit, such as megabases, is left in place and `int()` rejects it. */
  lemma BinSizeOtherUnit(d: string)
    requires |d| > 0 && AllDigits(d)
    ensures ParseBinSize(d + "mb").Err?
  {
    var t := d + "mb";
    assert 'p' !in t && 'k' !in t by {
      forall i | 0 <= i < |t| ensures t[i] != 'p' && t[i] != 'k' {
        if i < |d| { assert t[i] == d[i] && IsDigit(d[i]); }
      }
    }
    ReplaceAbsent(t, "bp", "", 1);
    ReplaceAbsent(t, "kb", "000", 0);
    ParseIntRejects(t, |d|);
  }

  /** Rendering a size in kilobases and parsing it back gives the size in bases. */
  lemma BinSizeKilobasesRoundTrip(n: nat)
    ensures ParseBinSize(ShowNat(n) + "kb") == Ok(n * 1000)
  {
    BinSizeKilobases(ShowNat(n));
    DigitsValueShowNat(n);
  }

  /** Rendering a size in bases and parsing it back gives the size. */
  lemma BinSizeBasesRoundTrip(n: nat)
    ensures ParseBinSize(ShowNat(n) + "bp") == Ok(n)
  {
    BinSizeBases(ShowNat(n));
    DigitsValueShowNat(n);
  }

  /** The candidate region: the single base at the summit position. */
  datatype Summit = Summit(chrom: string, start: int, end: int)

  datatype SummitError = MissingPosition | BadPosition(cause: IntError)

  /** `chrom:pos` becomes the one-base interval `[pos, pos + 1)` on `chrom`;
      text after a second `:` is ignored, a missing `:` is an error. */
  function ParseSummit(s: string): (r: Result<Summit, SummitError>)
    ensures r.Ok? ==> r.value.end == r.value.start + 1 && ':' !in r.value.chrom
    ensures ':' !in s ==> r == Err(MissingPosition)
  {
    var parts := Split(s, ':');
    SplitCount(s, ':');
    if |parts| < 2 then Err(MissingPosition)
    else
      match ParseInt(parts[1])
      case Ok(p) => Ok(Summit(parts[0], p, p + 1))
      case Err(e) => Err(BadPosition(e))
  }

  /** Writing a summit as `chrom:pos` and parsing it back gives the one-base interval at pos. */
  lemma SummitRoundTrip(chrom: string, pos: nat)
    requires ':' !in chrom
    ensures ParseSummit(chrom + ":" + ShowNat(pos)) == Ok(Summit(chrom, pos, pos + 1))
  {
    var d := ShowNat(pos);
    assert ':' !in d by {
      forall i | 0 <= i < |d| ensures d[i] != ':' { assert IsDigit(d[i]); }
    }
    assert chrom + ":" + d == chrom + [':'] + d;
    SplitFirst(chrom, ':', d);
    SplitNoSeparator(d, ':');
    ParseIntShowNat(pos);
  }

  /** Only the first two fields count: anything after a second `:` is ignored. */
  lemma SummitIgnoresLaterFields(chrom: string, pos: nat, rest: string)
    requires ':' !in chrom
    ensures ParseSummit(chrom + ":" + ShowNat(pos) + ":" + rest) == Ok(Summit(chrom, pos, pos + 1))
  {
    var d := ShowNat(pos);
    assert ':' !in d by {
      forall i | 0 <= i < |d| ensures d[i] != ':' { assert IsDigit(d[i]); }
    }
    assert chrom + ":" + d + ":" + rest == chrom + [':'] + (d + [':'] + rest);
    SplitFirst(chrom, ':', d + [':'] + rest);
    SplitFirst(d, ':', rest);
    ParseIntShowNat(pos);
  }

  /** A position that `int()` rejects is reported as a bad position carrying `int()`'s error. */
  lemma SummitBadPosition(chrom: string, p: string)
    requires ':' !in chrom && ':' !in p && ParseInt(p).Err?
    ensures ParseSummit(chrom + ":" + p) == Err(BadPosition(ParseInt(p).error))
  {
    assert chrom + ":" + p == chrom + [':'] + p;
    SplitFirst(chrom, ':', p);
    SplitNoSeparator(p, ':');
  }
}

=== FILE: features.dfy ===
/**
 Training data for one candidate bin: the sorted bins of the sparse single-cell
 input without the candidate, the reference-by-bin presence matrix, the
 candidate's presence label per reference, and the guard that refuses to train
 when the label is the same for every reference.
 */
module Features {
  import opened Wrappers
  import opened Orders
  import opened Panel

  /** Non-decreasing bin order, the order `sorted()` produces. */
  predicate Ascending(s: seq<Bin>) {
    forall i, j :: 0 <= i < j < |s| ==> s[i] <= s[j]
  }

  /** `Orders.StrictlyOrdered` under `<` on bins, written out so that it is not ghost. */
  predicate StrictlyAscending(s: seq<Bin>) {
    forall i, j :: 0 <= i < j < |s| ==> s[i] < s[j]
  }

  /** Insert `x` before the first element not below it. */
  function Insert(x: Bin, s: seq<Bin>): seq<Bin> {
    if s == [] || x <= s[0] then [x] + s else [s[0]] + Insert(x, s[1..])
  }

  /** Inserting adds exactly the one element. */
  lemma {:induction false} InsertElements(x: Bin, s: seq<Bin>)
    ensures multiset(Insert(x, s)) == multiset(s) + multiset{x}
  {
    if s != [] && x > s[0] {
      InsertElements(x, s[1..]);
      assert s == [s[0]] + s[1..];
    }
  }

  /** A lower bound of `x` and of the elements of `s` bounds every element after inserting. */
  lemma LowerBound(y: Bin, x: Bin, s: seq<Bin>)
    requires y <= x && forall i :: 0 <= i < |s| ==> y <= s[i]
    ensures forall i :: 0 <= i < |Insert(x, s)| ==> y <= Insert(x, s)[i]
  {
    var t := Insert(x, s);
    InsertElements(x, s);
    forall i | 0 <= i < |t| ensures y <= t[i] {
      assert t[i] in multiset(s) + multiset{x};
      if t[i] != x {
        var k :| 0 <= k < |s| && s[k] == t[i];
      }
    }
  }

  /** The strict form of `LowerBound`. */
  lemma StrictLowerBound(y: Bin, x: Bin, s: seq<Bin>)
    requires y < x && forall i :: 0 <= i < |s| ==> y < s[i]
    ensures forall i :: 0 <= i < |Insert(x, s)| ==> y < Insert(x, s)[i]
  {
    var t := Insert(x, s);
    InsertElements(x, s);
    forall i | 0 <= i < |t| ensures y < t[i] {
      assert t[i] in multiset(s) + multiset{x};
      if t[i] != x {
        var k :| 0 <= k < |s| && s[k] == t[i];
      }
    }
  }

  /** Putting a lower bound in front of an ascending sequence keeps it ascending. */
  lemma ConsAscending(h: Bin, t: seq<Bin>)
    requires Ascending(t) && forall i :: 0 <= i < |t| ==> h <= t[i]
    ensures Ascending([h] + t)
  {
    var r := [h] + t;
    forall i, j | 0 <= i < j < |r| ensures r[i] <= r[j] {
      assert r[j] == t[j - 1];
      if i > 0 { assert r[i] == t[i - 1]; }
    }
  }

  /** Putting a strict lower bound in front of a strictly ascending sequence keeps it strictly ascending. */
  lemma ConsStrictlyAscending(h: Bin, t: seq<Bin>)
    requires StrictlyAscending(t) && forall i :: 0 <= i < |t| ==> h < t[i]
    ensures StrictlyAscending([h] + t)
  {
    var r := [h] + t;
    forall i, j | 0 <= i < j < |r| ensures r[i] < r[j] {
      assert r[j] == t[j - 1];
      if i > 0 { assert r[i] == t[i - 1]; }
    }
  }

  /** Dropping the head keeps a sequence (strictly) ascending. */
  lemma TailAscending(s: seq<Bin>)
    requires s != [] && Ascending(s)
    ensures Ascending(s[1..])
    ensures StrictlyAscending(s) ==> StrictlyAscending(s[1..])
  {
    var t := s[1..];
    forall i, j | 0 <= i < j < |t| ensures t[i] <= t[j] {
      assert t[i] == s[i + 1] && t[j] == s[j + 1];
    }
    if StrictlyAscending(s) {
      forall i, j | 0 <= i < j < |t| ensures t[i] < t[j] {
        assert t[i] == s[i + 1] && t[j] == s[j + 1];
      }
    }
  }

  /** Inserting into an ascending sequence keeps it ascending, and strictly so
      when the sequence was strictly ascending and did not hold the element. */
  lemma {:induction false} InsertAscending(x: Bin, s: seq<Bin>)
    requires Ascending(s)
    ensures Ascending(Insert(x, s))
    ensures StrictlyAscending(s) && x !in s ==> StrictlyAscending(Insert(x, s))
  {
    if s == [] || x <= s[0] {
      ConsAscending(x, s);
      if StrictlyAscending(s) && x !in s {
        ConsStrictlyAscending(x, s);
      }
    } else {
      var tail := s[1..];
      assert s == [s[0]] + tail;
      TailAscending(s);
      InsertAscending(x, tail);
      assert forall i :: 0 <= i < |tail| ==> s[0] <= tail[i] by {
        forall i | 0 <= i < |tail| ensures s[0] <= tail[i] { assert tail[i] == s[i + 1]; }
      }
      LowerBound(s[0], x, tail);
      ConsAscending(s[0], Insert(x, tail));
      if StrictlyAscending(s) && x !in s {
        assert forall i :: 0 <= i < |tail| ==> s[0] < tail[i] by {
          forall i | 0 <= i < |tail| ensures s[0] < tail[i] { assert tail[i] == s[i + 1]; }
        }
        assert s[0] < x by { assert x != s[0]; }
        StrictLowerBound(s[0], x, tail);
        ConsStrictlyAscending(s[0], Insert(x, tail));
      }
    }
  }

  /** Python's `sorted` on a list of bins. */
  function SortBins(s: seq<Bin>): seq<Bin> {
    if s == [] then [] else Insert(s[0], SortBins(s[1..]))
  }

  /** Sorting rearranges the bins into ascending order, strictly ascending when no bin repeats. */
  lemma {:induction false} SortBinsSorts(s: seq<Bin>)
    ensures Ascending(SortBins(s)) && multiset(SortBins(s)) == multiset(s)
    ensures Distinct(s) ==> StrictlyAscending(SortBins(s))
  {
    if s != [] {
      var tail := s[1..];
      assert s == [s[0]] + tail;
      SortBinsSorts(tail);
      var t := SortBins(tail);
      InsertElements(s[0], t);
      InsertAscending(s[0], t);
      if Distinct(s) {
        DistinctTail(s);
        assert s[0] !in multiset(t);
      }
    }
  }

  /** Dropping the head of a repetition-free sequence leaves one without the head. */
  lemma DistinctTail(s: seq<Bin>)
    requires s != [] && Distinct(s)
    ensures Distinct(s[1..]) && s[0] !in s[1..]
  {
    var t := s[1..];
    forall i, j | 0 <= i < j < |t| ensures t[i] != t[j] {
      assert t[i] == s[i + 1] && t[j] == s[j + 1];
    }
    forall k | 0 <= k < |t| ensures t[k] != s[0] {
      assert t[k] == s[k + 1];
    }
  }

  /** Python's `list.index`: the position of the first occurrence. */
  function FirstIndex(s: seq<Bin>, x: Bin): (k: nat)
    requires x in s
    ensures k < |s| && s[k] == x
    ensures forall j :: 0 <= j < k ==> s[j] != x
  {
    if s[0] == x then 0
    else
      assert x in s[1..] by { assert s == [s[0]] + s[1..]; }
      1 + FirstIndex(s[1..], x)
  }

  /** Python's `list.remove`: delete the first occurrence. */
  function RemoveFirst(s: seq<Bin>, x: Bin): (r: seq<Bin>)
    requires x in s
  {
    var k := FirstIndex(s, x);
    s[..k] + s[k + 1..]
  }

  /** Removing an element of a strictly ascending sequence keeps it strictly ascending. */
  lemma RemoveFirstAscending(s: seq<Bin>, x: Bin)
    requires x in s && StrictlyAscending(s)
    ensures StrictlyAscending(RemoveFirst(s, x))
  {
    var k := FirstIndex(s, x);
    var r := s[..k] + s[k + 1..];
    forall i, j | 0 <= i < j < |r| ensures r[i] < r[j] {
      var i' := if i < k then i else i + 1;
      var j' := if j < k then j else j + 1;
      assert r[i] == s[i'] && r[j] == s[j'];
    }
  }

  /** Removing an element of a strictly ascending sequence leaves exactly the other elements. */
  lemma RemoveFirstMembers(s: seq<Bin>, x: Bin)
    requires x in s && StrictlyAscending(s)
    ensures forall b :: b in RemoveFirst(s, x) <==> b in s && b != x
  {
    var k := FirstIndex(s, x);
    var r := s[..k] + s[k + 1..];
    assert |r| == |s| - 1;
    forall i | 0 <= i < |r| ensures r[i] in s && r[i] != x {
      if i < k {
        assert r[i] == s[i];
      } else {
        assert r[i] == s[i + 1];
      }
    }
    forall i | 0 <= i < |s| && s[i] != x ensures s[i] in r {
      if i < k {
        assert r[i] == s[i];
      } else {
        assert i != k;
        assert r[i - 1] == s[i];
      }
    }
  }

  /** The training columns, and whether the candidate bin was among the input bins. */
  datatype Columns = Columns(bins: seq<Bin>, present: bool)

  /** Sort the listed input bins and drop the candidate bin if present. The
      listing is that of a set, so no bin occurs twice. */
  function ColumnsOf(listed: seq<Bin>, cand: Bin): (r: Columns)
    requires Distinct(listed)
    ensures r.present <==> cand in listed
    ensures cand !in r.bins
    ensures forall b :: b in r.bins <==> b in listed && b != cand
    ensures StrictlyAscending(r.bins)
  {
    var sorted := SortBins(listed);
    SortBinsSorts(listed);
    assert forall b :: b in sorted <==> b in listed by {
      assert forall b :: b in sorted <==> b in multiset(listed);
    }
    var present := cand in sorted;
    if present then
      RemoveFirstAscending(sorted, cand);
      RemoveFirstMembers(sorted, cand);
      Columns(RemoveFirst(sorted, cand), true)
    else Columns(sorted, false)
  }

  /** The columns depend only on the set of input bins, not on how it was listed. */
  lemma ColumnsIgnoreListingOrder(l1: seq<Bin>, l2: seq<Bin>, cand: Bin)
    requires Distinct(l1) && Distinct(l2)
    requires forall b :: b in l1 <==> b in l2
    ensures ColumnsOf(l1, cand) == ColumnsOf(l2, cand)
  {
    var c1 := ColumnsOf(l1, cand).bins;
    var c2 := ColumnsOf(l2, cand).bins;
    var less := (x: Bin, y: Bin) => x < y;
    assert StrictlyOrdered(c1, less) && StrictlyOrdered(c2, less);
    OrderedUnique(c1, c2, less);
  }

  /** One matrix row: 1 for each column bin the reference holds, 0 otherwise. */
  function Row(cols: seq<Bin>, bins: set<Bin>): (r: seq<int>)
    ensures |r| == |cols|
    ensures forall j :: 0 <= j < |cols| ==> (r[j] == 1 <==> cols[j] in bins) && (r[j] == 0 <==> cols[j] !in bins)
  {
    seq(|cols|, j requires 0 <= j < |cols| => if cols[j] in bins then 1 else 0)
  }

  /** The training features: one row per panel row, in panel order. */
  function FeatureMatrix(cols: seq<Bin>, store: Store, panel: seq<Accession>): (m: seq<seq<int>>)
    requires Loaded(store, panel)
    ensures |m| == |panel|
    ensures forall i :: 0 <= i < |panel| ==> m[i] == Row(cols, store[panel[i]])
  {
    seq(|panel|, i requires 0 <= i < |panel| => Row(cols, store[panel[i]]))
  }

  /** The class vector: 1 for each panel row whose reference holds the candidate bin. */
  function Labels(cand: Bin, store: Store, panel: seq<Accession>): (y: seq<int>)
    requires Loaded(store, panel)
    ensures |y| == |panel|
    ensures forall i :: 0 <= i < |panel| ==> (y[i] == 1 <==> cand in store[panel[i]]) && (y[i] == 0 <==> cand !in store[panel[i]])
  {
    seq(|panel|, i requires 0 <= i < |panel| => if cand in store[panel[i]] then 1 else 0)
  }

  function Sum(y: seq<int>): int {
    if y == [] then 0 else Sum(y[..|y| - 1]) + y[|y| - 1]
  }

  /** The number of 1 labels is the number of references holding the candidate. */
  lemma {:induction false} LabelSumIsCount(cand: Bin, store: Store, panel: seq<Accession>)
    requires Loaded(store, panel)
    ensures Sum(Labels(cand, store, panel)) == CountIn(store, panel, cand)
  {
    if panel != [] {
      var front := panel[..|panel| - 1];
      var y := Labels(cand, store, panel);
      assert y[..|y| - 1] == Labels(cand, store, front);
      LabelSumIsCount(cand, store, front);
    }
  }

  /** Column `j` of a matrix whose rows are all wider than `j`. */
  function Column(m: seq<seq<int>>, j: nat): (c: seq<int>)
    requires forall i :: 0 <= i < |m| ==> j < |m[i]|
    ensures |c| == |m| && forall i :: 0 <= i < |m| ==> c[i] == m[i][j]
  {
    seq(|m|, i requires 0 <= i < |m| => m[i][j])
  }

  /** A column of the feature matrix is the label vector its bin would have as candidate. */
  lemma ColumnIsLabels(cols: seq<Bin>, store: Store, panel: seq<Accession>, j: nat)
    requires Loaded(store, panel) && j < |cols|
    ensures forall i :: 0 <= i < |panel| ==> j < |FeatureMatrix(cols, store, panel)[i]|
    ensures Column(FeatureMatrix(cols, store, panel), j) == Labels(cols[j], store, panel)
  {
    var m := FeatureMatrix(cols, store, panel);
    var c := Column(m, j);
    var y := Labels(cols[j], store, panel);
    forall i | 0 <= i < |panel| ensures c[i] == y[i] {
      assert m[i] == Row(cols, store[panel[i]]);
    }
  }

  /** The number of 1 entries in a column is the number of references holding its bin. */
  lemma {:induction false} ColumnSumIsCount(cols: seq<Bin>, store: Store, panel: seq<Accession>, j: nat)
    requires Loaded(store, panel) && j < |cols|
    ensures forall i :: 0 <= i < |panel| ==> j < |FeatureMatrix(cols, store, panel)[i]|
    ensures Sum(Column(FeatureMatrix(cols, store, panel), j)) == CountIn(store, panel, cols[j])
  {
    ColumnIsLabels(cols, store, panel, j);
    LabelSumIsCount(cols[j], store, panel);
  }

  /** The synthetic query: every column present. */
  function AllOnes(width: nat): (q: seq<int>)
    ensures |q| == width && forall j :: 0 <= j < width ==> q[j] == 1
  {
    seq(width, _ => 1)
  }

  /** Above this reference frequency the candidate counts as present everywhere. */
  const UpperCut: real := 0.9999999
  /** Below this reference frequency the candidate counts as absent everywhere. */
  const LowerCut: real := 0.0000001

  /** Why no model is trained for the candidate bin. */
  datatype Failure =
    | AlwaysPresent(frequency: real)
    | NeverPresent(frequency: real)
    | EmptyPanel
    | NoFeatures

  /** Everything the classifier is given for one candidate bin. */
  datatype TrainingSet = TrainingSet(
    columns: seq<Bin>,
    binIsPresent: bool,
    features: seq<seq<int>>,
    labels: seq<int>,
    refFrequency: real,
    query: seq<int>)

  /** `t` is the training set for `cand`, the listed input bins and the panel. */
  ghost predicate Describes(t: TrainingSet, listed: seq<Bin>, cand: Bin, store: Store, panel: seq<Accession>)
    requires Loaded(store, panel)
  {
    && cand !in t.columns
    && StrictlyAscending(t.columns)
    && (forall b :: b in t.columns <==> b in listed && b != cand)
    && (t.binIsPresent <==> cand in listed)
    && |t.features| == |panel|
    && (forall i :: 0 <= i < |panel| ==> |t.features[i]| == |t.columns|)
    && (forall i, j :: 0 <= i < |panel| && 0 <= j < |t.columns| ==>
          (t.features[i][j] == 1 <==> t.columns[j] in store[panel[i]]) &&
          (t.features[i][j] == 0 <==> t.columns[j] !in store[panel[i]]))
    && t.features == FeatureMatrix(t.columns, store, panel)
    && |t.labels| == |panel|
    && (forall i :: 0 <= i < |panel| ==>
          (t.labels[i] == 1 <==> cand in store[panel[i]]) && (t.labels[i] == 0 <==> cand !in store[panel[i]]))
    && t.labels == Labels(cand, store, panel)
    && |panel| > 0
    && t.refFrequency == (CountIn(store, panel, cand) as real) / (|panel| as real)
    && |t.query| == |t.columns| > 0
    && (forall j :: 0 <= j < |t.query| ==> t.query[j] == 1)
  }

  /** The shares the guard accepts lie strictly between none and all. */
  lemma ShareCuts(c: nat, n: nat)
    requires 0 < n && c <= n
    ensures (c as real) / (n as real) <= UpperCut ==> c < n
    ensures (c as real) / (n as real) >= LowerCut ==> 0 < c
    ensures c == n ==> (c as real) / (n as real) == 1.0
    ensures c == 0 ==> (c as real) / (n as real) == 0.0
  {
    if c == n {
      DivideBySelf(n as real);
    }
    if c == 0 {
      assert (c as real) / (n as real) == 0.0 / (n as real) == 0.0;
    }
  }

  lemma DivideBySelf(x: real)
    requires x > 0.0
    ensures x / x == 1.0
  {
  }

  /** Below ten million references the cut-offs separate exactly "none", "all" and "some". */
  lemma ShareInsideCuts(c: nat, n: nat)
    requires 0 < c < n < 10000000
    ensures LowerCut <= (c as real) / (n as real) <= UpperCut
  {
    var f := (c as real) / (n as real);
    var nr := n as real;
    assert f * nr == c as real;
    assert LowerCut * nr < 1.0;
    CancelPositive(LowerCut, f, nr);
    assert UpperCut * nr == nr - nr / 10000000.0;
    assert (c as real) <= nr - 1.0;
    CancelPositive(f, UpperCut, nr);
  }

  /** Dividing both sides of an inequality by a positive number. */
  lemma CancelPositive(a: real, b: real, n: real)
    requires n > 0.0 && a * n <= b * n
    ensures a <= b
  {
  }

  /** Build the training data for `cand`, or say why no model can be trained:
      the candidate's reference frequency is (nearly) 1 or 0, the panel is
      empty, or no input bin other than the candidate is left as a feature. */
  function Prepare(listed: seq<Bin>, cand: Bin, store: Store, panel: seq<Accession>): (r: Result<TrainingSet, Failure>)
    requires Distinct(listed) && Loaded(store, panel)
    ensures r.Ok? ==> Describes(r.value, listed, cand, store, panel)
    ensures r.Ok? ==> 0 < CountIn(store, panel, cand) < |panel|
    ensures r == Err(EmptyPanel) <==> |panel| == 0
    ensures |panel| > 0 && InEveryReference(store, panel, cand) ==> r == Err(AlwaysPresent(1.0))
    ensures |panel| > 0 && !InSomeReference(store, panel, cand) ==> r == Err(NeverPresent(0.0))
    ensures r.Err? && r.error.AlwaysPresent? ==>
      |panel| > 0 && r.error.frequency == (CountIn(store, panel, cand) as real) / (|panel| as real) > UpperCut
    ensures r.Err? && r.error.NeverPresent? ==>
      |panel| > 0 && r.error.frequency == (CountIn(store, panel, cand) as real) / (|panel| as real) < LowerCut
    ensures r == Err(NoFeatures) ==> forall b :: b in listed ==> b == cand
  {
    var c := ColumnsOf(listed, cand);
    var features := FeatureMatrix(c.bins, store, panel);
    var labels := Labels(cand, store, panel);
    if |panel| == 0 then Err(EmptyPanel)
    else
      var f := (Sum(labels) as real) / (|panel| as real);
      LabelSumIsCount(cand, store, panel);
      CountInAll(store, panel, cand);
      CountInSome(store, panel, cand);
      ShareCuts(CountIn(store, panel, cand), |panel|);
      if f > UpperCut then Err(AlwaysPresent(f))
      else if f < LowerCut then Err(NeverPresent(f))
      else if |c.bins| == 0 then Err(NoFeatures)
      else Ok(TrainingSet(c.bins, c.present, features, labels, f, AllOnes(|c.bins|)))
  }

  /** With fewer than ten million references, training is reached exactly when
      some but not all references hold the candidate and another input bin exists. */
  lemma {:induction false} PrepareSucceedsIff(listed: seq<Bin>, cand: Bin, store: Store, panel: seq<Accession>)
    requires Distinct(listed) && Loaded(store, panel)
    requires 0 < |panel| < 10000000
    ensures Prepare(listed, cand, store, panel).Ok? <==>
      0 < CountIn(store, panel, cand) < |panel| && exists b :: b in listed && b != cand
  {
    var r := Prepare(listed, cand, store, panel);
    var c := CountIn(store, panel, cand);
    if r.Ok? {
      var b := r.value.columns[0];
      assert b in listed && b != cand;
    }
    if 0 < c < |panel| {
      ShareInsideCuts(c, |panel|);
    }
  }

  /** With distinct accessions the candidate's label mean is its frequency-index
      entry, and a candidate absent from the index has label mean 0. */
  lemma {:induction false} LabelMeanMatchesIndex(cand: Bin, store: Store, panel: seq<Accession>)
    requires Loaded(store, panel) && Distinct(panel) && |panel| > 0
    ensures var mean := (Sum(Labels(cand, store, panel)) as real) / (|panel| as real);
      && (cand in FrequencyIndex(store, panel) ==> FrequencyIndex(store, panel)[cand] == mean)
      && (cand !in FrequencyIndex(store, panel) ==> mean == 0.0)
  {
    LabelSumIsCount(cand, store, panel);
    CountInSome(store, panel, cand);
    if cand in FrequencyIndex(store, panel) {
      FrequencyIsShare(store, panel, cand);
    }
  }
}

=== FILE: genes.dfy ===
/**
 Gene annotation of a bin: the per-chromosome gene lists, the search for the
 first gene body overlapping the bin or else the first gene with the nearest
 transcription start site (TSS), and the strand-aware signed distances from
 the bin's midpoint to the gene's TSS and transcription termination site (TTS).
 */
module Genes {
  import opened Wrappers

  type GeneId = string

  /** The orientation column: `plus`, `minus`, or any other value. */
  datatype Strand = Plus | Minus | Other

  /** One row of the gene table; a missing coordinate is `None`. */
  datatype GeneRow = GeneRow(
    id: GeneId,
    chrom: string,
    start: Option<int>,
    end: Option<int>,
    strand: Strand,
    symbol: string,
    description: string)

  /** Every entry of an id-keyed map is stored under its own id. */
  predicate IdKeyed(m: map<GeneId, GeneRow>) {
    forall id :: id in m ==> m[id].id == id
  }

  /** The per-column dictionaries keyed by gene id: when an id repeats, its last row wins. */
  function Index(rows: seq<GeneRow>): (m: map<GeneId, GeneRow>)
    ensures forall i :: 0 <= i < |rows| ==> rows[i].id in m
    ensures IdKeyed(m)
  {
    if rows == [] then map[]
    else
      var front := rows[..|rows| - 1];
      var last := rows[|rows| - 1];
      var m0 := Index(front);
      assert forall i :: 0 <= i < |rows| - 1 ==> rows[i] == front[i];
      m0[last.id := last]
  }

  /** The row an id indexes is the last row carrying that id. */
  lemma {:induction false} IndexLastWins(rows: seq<GeneRow>, i: nat)
    requires i < |rows|
    requires forall j :: i < j < |rows| ==> rows[j].id != rows[i].id
    ensures Index(rows)[rows[i].id] == rows[i]
  {
    if i < |rows| - 1 {
      var front := rows[..|rows| - 1];
      assert rows[i] == front[i];
      assert forall j :: i < j < |front| ==> front[j] == rows[j];
      IndexLastWins(front, i);
    }
  }

  /** A gene of the chromosome lists: its coordinates and TSS, and the columns the report shows. */
  datatype GeneLoc = GeneLoc(
    id: GeneId,
    start: int,
    end: int,
    tss: int,
    strand: Strand,
    symbol: string,
    description: string)

  /** A gene is listed when its chromosome is allowed and both coordinates are present. */
  predicate Listed(g: GeneRow, allowed: set<string>) {
    g.chrom in allowed && g.start.Some? && g.end.Some?
  }

  /** The TSS is the start on the plus strand and the end otherwise. */
  function LocOf(g: GeneRow): (l: GeneLoc)
    requires g.start.Some? && g.end.Some?
    ensures l.id == g.id && l.start == g.start.value && l.end == g.end.value && l.strand == g.strand
    ensures l.tss == (if g.strand == Plus then l.start else l.end)
  {
    var tss := if g.strand == Plus then g.start.value else g.end.value;
    GeneLoc(g.id, g.start.value, g.end.value, tss, g.strand, g.symbol, g.description)
  }

  /** The list for `chrom`, built by walking the table's ids in row order and
      looking each up in the id-keyed dictionaries. */
  function GenesOn(rows: seq<GeneRow>, index: map<GeneId, GeneRow>, allowed: set<string>, chrom: string): seq<GeneLoc>
    requires forall i :: 0 <= i < |rows| ==> rows[i].id in index
  {
    if rows == [] then []
    else
      var front := GenesOn(rows[..|rows| - 1], index, allowed, chrom);
      var g := index[rows[|rows| - 1].id];
      if Listed(g, allowed) && g.chrom == chrom then front + [LocOf(g)] else front
  }

  /** Every gene of `genes` is the indexed row of its id, listed, and on `chrom`. */
  predicate AllListedOn(genes: seq<GeneLoc>, index: map<GeneId, GeneRow>, allowed: set<string>, chrom: string) {
    forall k :: 0 <= k < |genes| ==>
      && genes[k].id in index
      && Listed(index[genes[k].id], allowed)
      && index[genes[k].id].chrom == chrom
      && genes[k] == LocOf(index[genes[k].id])
  }

  /** Every gene of a chromosome list is the indexed row of its id, on an
      allowed chromosome, on `chrom`, with both coordinates present. */
  lemma {:induction false} GenesOnSound(rows: seq<GeneRow>, index: map<GeneId, GeneRow>, allowed: set<string>, chrom: string)
    requires IdKeyed(index)
    requires forall i :: 0 <= i < |rows| ==> rows[i].id in index
    ensures AllListedOn(GenesOn(rows, index, allowed, chrom), index, allowed, chrom)
  {
    if rows != [] {
      var front := rows[..|rows| - 1];
      assert forall i :: 0 <= i < |front| ==> front[i] == rows[i];
      GenesOnSound(front, index, allowed, chrom);
      var g := index[rows[|rows| - 1].id];
      if Listed(g, allowed) && g.chrom == chrom {
        var l := LocOf(g);
        assert l.id == g.id && index[g.id] == g;
        var r0 := GenesOn(front, index, allowed, chrom);
        var r := r0 + [l];
        assert GenesOn(rows, index, allowed, chrom) == r;
        forall k | 0 <= k < |r|
          ensures r[k].id in index && Listed(index[r[k].id], allowed)
          ensures index[r[k].id].chrom == chrom && r[k] == LocOf(index[r[k].id])
        {
          if k < |r0| {
            assert r[k] == r0[k];
          } else {
            assert r[k] == l;
          }
        }
      }
    }
  }

  /** Every row whose indexed gene is listed on `chrom` contributes that gene. */
  lemma {:induction false} GenesOnComplete(rows: seq<GeneRow>, index: map<GeneId, GeneRow>, allowed: set<string>, chrom: string)
    requires forall i :: 0 <= i < |rows| ==> rows[i].id in index
    ensures forall i :: 0 <= i < |rows| && Listed(index[rows[i].id], allowed) && index[rows[i].id].chrom == chrom ==>
      LocOf(index[rows[i].id]) in GenesOn(rows, index, allowed, chrom)
  {
    if rows != [] {
      var front := rows[..|rows| - 1];
      GenesOnComplete(front, index, allowed, chrom);
      assert forall i :: 0 <= i < |rows| - 1 ==> rows[i] == front[i];
    }
  }

  /** `genes_pos[chrom]`: the gene list of one chromosome. */
  function GeneList(rows: seq<GeneRow>, allowed: set<string>, chrom: string): seq<GeneLoc> {
    GenesOn(rows, Index(rows), allowed, chrom)
  }

  /** The lists keep table order: the list of a concatenated table is the
      concatenation of the lists. */
  lemma {:induction false} GenesOnAppend(a: seq<GeneRow>, b: seq<GeneRow>, index: map<GeneId, GeneRow>, allowed: set<string>, chrom: string)
    requires IdKeyed(index)
    requires forall i :: 0 <= i < |a| ==> a[i].id in index
    requires forall i :: 0 <= i < |b| ==> b[i].id in index
    ensures forall i :: 0 <= i < |a + b| ==> (a + b)[i].id in index
    ensures GenesOn(a + b, index, allowed, chrom) == GenesOn(a, index, allowed, chrom) + GenesOn(b, index, allowed, chrom)
    decreases |b|
  {
    assert forall i :: 0 <= i < |a + b| ==> (a + b)[i].id in index by {
      forall i | 0 <= i < |a + b| ensures (a + b)[i].id in index {
        if i < |a| { assert (a + b)[i] == a[i]; } else { assert (a + b)[i] == b[i - |a|]; }
      }
    }
    if b == [] {
      assert a + b == a;
    } else {
      var b' := b[..|b| - 1];
      assert (a + b)[..|a + b| - 1] == a + b';
      assert (a + b)[|a + b| - 1] == b[|b| - 1];
      GenesOnAppend(a, b', index, allowed, chrom);
    }
  }

  /** A gene body `[start, end)` overlaps the bin `[binStart, binEnd)`. */
  predicate Overlaps(g: GeneLoc, binStart: int, binEnd: int) {
    g.end > binStart && g.start < binEnd
  }

  /** The position of the first gene whose body overlaps the bin, if any. */
  function FirstOverlap(genes: seq<GeneLoc>, binStart: int, binEnd: int): (r: Option<nat>)
    ensures r.Some? ==> r.value < |genes| && Overlaps(genes[r.value], binStart, binEnd)
    ensures r.Some? ==> forall j :: 0 <= j < r.value ==> !Overlaps(genes[j], binStart, binEnd)
    ensures r.None? ==> forall j :: 0 <= j < |genes| ==> !Overlaps(genes[j], binStart, binEnd)
  {
    if genes == [] then None
    else if Overlaps(genes[0], binStart, binEnd) then Some(0)
    else
      match FirstOverlap(genes[1..], binStart, binEnd)
      case None => None
      case Some(k) => Some(k + 1)
  }

  function Abs(x: int): nat {
    if x < 0 then -x else x
  }

  /** The distance from a gene's TSS to the nearer end of the bin. */
  function TssDistance(g: GeneLoc, binStart: int, binEnd: int): nat {
    var a := Abs(g.tss - binStart);
    var b := Abs(g.tss - binEnd);
    if a <= b then a else b
  }

  /** The position of the first gene of least TSS distance (the head of a
      stable sort by that distance). */
  function FirstNearest(genes: seq<GeneLoc>, binStart: int, binEnd: int): (k: nat)
    requires |genes| > 0
    ensures k < |genes|
    ensures forall j :: 0 <= j < |genes| ==> TssDistance(genes[k], binStart, binEnd) <= TssDistance(genes[j], binStart, binEnd)
    ensures forall j :: 0 <= j < k ==> TssDistance(genes[j], binStart, binEnd) > TssDistance(genes[k], binStart, binEnd)
  {
    if |genes| == 1 then 0
    else
      var front := genes[..|genes| - 1];
      var k := FirstNearest(front, binStart, binEnd);
      assert forall j :: 0 <= j < |front| ==> front[j] == genes[j];
      if TssDistance(genes[|genes| - 1], binStart, binEnd) < TssDistance(genes[k], binStart, binEnd) then |genes| - 1
      else k
  }

  /** `int(mean([binStart, binEnd]))`: the midpoint, truncated toward zero. */
  function Midpoint(binStart: int, binEnd: int): (m: int)
    ensures binStart + binEnd >= 0 ==> 2 * m <= binStart + binEnd <= 2 * m + 1
    ensures binStart + binEnd < 0 ==> 2 * m - 1 <= binStart + binEnd <= 2 * m
  {
    var sum := binStart + binEnd;
    if sum >= 0 then sum / 2 else -((-sum) / 2)
  }

  /** Signed distances from the midpoint to the gene's TSS and TTS, both
      negated on the minus strand so that positive means downstream in the
      gene's own reading direction. On either recognised strand the TSS
      distance then exceeds the TTS distance by the gene's length. */
  function SignedDistances(g: GeneLoc, mid: int): (d: (int, int))
    ensures g.strand == Plus ==> d.0 == mid - g.start && d.1 == mid - g.end
    ensures g.strand == Minus ==> d.0 == g.end - mid && d.1 == g.start - mid
    ensures g.strand == Other ==> d.0 == mid - g.end && d.1 == mid - g.start
    ensures g.strand == Plus || g.strand == Minus ==> d.0 - d.1 == g.end - g.start
  {
    var tss := if g.strand == Plus then g.start else g.end;
    var tts := if g.strand == Plus then g.end else g.start;
    var dTss := mid - tss;
    var dTts := mid - tts;
    if g.strand == Minus then (-dTss, -dTts) else (dTss, dTts)
  }

  /** A plus-strand gene with TSS 1000 and a bin midpoint of 1500 gives +500;
      a minus-strand gene ending at 5000 with midpoint 4500 gives +500 too. */
  lemma SignConventionExamples()
    ensures SignedDistances(GeneLoc("p", 1000, 3000, 1000, Plus, "P", ""), 1500).0 == 500
    ensures SignedDistances(GeneLoc("m", 2000, 5000, 5000, Minus, "M", ""), 4500).0 == 500
  {
  }

  /** The gene chosen for a bin, where it sits in the list, and its distances. */
  datatype Annotation = Annotation(position: nat, gene: GeneLoc, overlap: bool, distTss: int, distTts: int)

  /** Annotate the bin `[binStart, binEnd)` against one chromosome's gene list. */
  function Annotate(genes: seq<GeneLoc>, binStart: int, binEnd: int): (a: Annotation)
    requires |genes| > 0
    ensures a.position < |genes| && a.gene == genes[a.position]
    ensures a.overlap <==> exists j :: 0 <= j < |genes| && Overlaps(genes[j], binStart, binEnd)
    ensures a.overlap ==> Overlaps(a.gene, binStart, binEnd)
    ensures a.overlap ==> forall j :: 0 <= j < a.position ==> !Overlaps(genes[j], binStart, binEnd)
    ensures !a.overlap ==>
      (forall j :: 0 <= j < |genes| ==> TssDistance(a.gene, binStart, binEnd) <= TssDistance(genes[j], binStart, binEnd))
    ensures !a.overlap ==>
      (forall j :: 0 <= j < a.position ==> TssDistance(genes[j], binStart, binEnd) > TssDistance(a.gene, binStart, binEnd))
    ensures (a.distTss, a.distTts) == SignedDistances(a.gene, Midpoint(binStart, binEnd))
  {
    var d := (k: nat) requires k < |genes| => SignedDistances(genes[k], Midpoint(binStart, binEnd));
    match FirstOverlap(genes, binStart, binEnd)
    case Some(k) => Annotation(k, genes[k], true, d(k).0, d(k).1)
    case None =>
      var k := FirstNearest(genes, binStart, binEnd);
      Annotation(k, genes[k], false, d(k).0, d(k).1)
  }

  /** An overlapping gene does not get distance 0: the TSS distance is still taken
      from the bin midpoint, here 52500 for a bin inside a plus-strand gene at 0. */
  lemma OverlapDistanceFromMidpoint()
    ensures var a := Annotate([GeneLoc("g", 0, 100000, 0, Plus, "G", "")], 50000, 55000);
            a.overlap && a.distTss == 52500
  {
    assert Overlaps(GeneLoc("g", 0, 100000, 0, Plus, "G", ""), 50000, 55000);
  }
}

=== FILE: orders.dfy ===
/** Orderings on sequences, and the fact that a strict order fixes a sequence's arrangement. */
module Orders {

  /** Every element comes strictly before every later one under `before`. */
  ghost predicate StrictlyOrdered<T>(s: seq<T>, before: (T, T) -> bool) {
    forall i, j :: 0 <= i < j < |s| ==> before(s[i], s[j])
  }

  ghost predicate Asymmetric<T(!new)>(before: (T, T) -> bool) {
    forall x, y :: before(x, y) ==> !before(y, x)
  }

  /** No element occurs twice. */
  predicate Distinct<T(==)>(s: seq<T>) {
    forall i, j :: 0 <= i < j < |s| ==> s[i] != s[j]
  }

  /** Two sequences holding the same elements that are both strictly ordered
      by an asymmetric relation are the same sequence. */
  lemma {:induction false} OrderedUnique<T(!new)>(a: seq<T>, b: seq<T>, before: (T, T) -> bool)
    requires Asymmetric(before)
    requires forall x :: x in a <==> x in b
    requires StrictlyOrdered(a, before) && StrictlyOrdered(b, before)
    ensures a == b
    decreases |a|
  {
    assert |b| > 0 ==> b[0] in b;
    if |a| == 0 {
      if |b| > 0 {
        assert false;
      }
    } else {
      assert a[0] in b;
      assert b[0] in a;
      var k :| 0 <= k < |b| && b[k] == a[0];
      var m :| 0 <= m < |a| && a[m] == b[0];
      assert b[0] == a[0];
      assert forall x :: x in a[1..] <==> x in a && x != a[0] by {
        forall x | x in a[1..] ensures x != a[0] {
          var i :| 0 <= i < |a[1..]| && a[1..][i] == x;
          assert before(a[0], a[i + 1]);
        }
        assert a == [a[0]] + a[1..];
      }
      assert forall x :: x in b[1..] <==> x in b && x != b[0] by {
        forall x | x in b[1..] ensures x != b[0] {
          var i :| 0 <= i < |b[1..]| && b[1..][i] == x;
          assert before(b[0], b[i + 1]);
        }
        assert b == [b[0]] + b[1..];
      }
      OrderedUnique(a[1..], b[1..], before);
      assert a == [a[0]] + a[1..] && b == [b[0]] + b[1..];
    }
  }
}

=== FILE: panel.dfy ===
/**
 The reference panel: the bulk experiments selected for the target, each a set
 of bin identifiers loaded by accession, and the frequency index over them
 (how often each bin is present across the panel).
 */
module Panel {
  import opened Orders

  /** A bin identifier: one fixed-size genomic interval. */
  type Bin = int

  type Accession = string

  /** The precomputed reference store: the bins of each reference experiment, by accession. */
  type Store = map<Accession, set<Bin>>

  /** Every accession of the panel has its bins in the store (loading does not fail). */
  predicate Loaded(store: Store, panel: seq<Accession>) {
    forall i :: 0 <= i < |panel| ==> panel[i] in store
  }

  /** Bin `b` is present in at least one reference of the panel. */
  predicate InSomeReference(store: Store, panel: seq<Accession>, b: Bin)
    requires Loaded(store, panel)
  {
    exists i :: 0 <= i < |panel| && b in store[panel[i]]
  }

  /** Bin `b` is present in every reference of the panel. */
  predicate InEveryReference(store: Store, panel: seq<Accession>, b: Bin)
    requires Loaded(store, panel)
  {
    forall i :: 0 <= i < |panel| ==> b in store[panel[i]]
  }

  /** The union of the panel's bin sets, accumulated in panel order. */
  function AllRefBins(store: Store, panel: seq<Accession>): (r: set<Bin>)
    requires Loaded(store, panel)
    ensures forall b :: b in r <==> InSomeReference(store, panel, b)
  {
    if panel == [] then {}
    else
      var rest := AllRefBins(store, panel[..|panel| - 1]);
      assert forall b :: InSomeReference(store, panel, b) <==>
        InSomeReference(store, panel[..|panel| - 1], b) || b in store[panel[|panel| - 1]];
      rest + store[panel[|panel| - 1]]
  }

  /** The number of panel rows whose reference contains `b`. */
  function CountIn(store: Store, panel: seq<Accession>, b: Bin): (r: nat)
    requires Loaded(store, panel)
    ensures r <= |panel|
  {
    if panel == [] then 0
    else CountIn(store, panel[..|panel| - 1], b) + (if b in store[panel[|panel| - 1]] then 1 else 0)
  }

  /** The accessions, each counted once, whose reference contains `b`: what a
      sum over the accession-keyed dictionary of loaded references counts. */
  function Holders(store: Store, panel: seq<Accession>, b: Bin): set<Accession> {
    set a | a in panel && a in store && b in store[a]
  }

  /** The frequency index: every bin seen in some reference maps to the number
      of references holding it over the number of panel rows; bins seen in no
      reference have no entry. An empty panel gives an empty index. */
  function FrequencyIndex(store: Store, panel: seq<Accession>): (r: map<Bin, real>)
    requires Loaded(store, panel)
    ensures forall b :: b in r <==> InSomeReference(store, panel, b)
  {
    if |panel| == 0 then map[]
    else map b | b in AllRefBins(store, panel) :: (|Holders(store, panel, b)| as real) / (|panel| as real)
  }

  /** Every entry of the frequency index lies in (0, 1]. */
  lemma FrequencyBounds(store: Store, panel: seq<Accession>, b: Bin)
    requires Loaded(store, panel)
    requires b in FrequencyIndex(store, panel)
    ensures 0.0 < FrequencyIndex(store, panel)[b] <= 1.0
  {
    HoldersBounds(store, panel, b);
    ShareBounds(|Holders(store, panel, b)| as real, |panel| as real);
  }

  lemma ShareBounds(c: real, n: real)
    requires 1.0 <= c <= n
    ensures 0.0 < c / n <= 1.0
  {
    assert c / n * n == c;
  }

  /** A bin seen somewhere has at least one holder, and never more holders than panel rows. */
  lemma {:induction false} HoldersBounds(store: Store, panel: seq<Accession>, b: Bin)
    requires Loaded(store, panel)
    ensures |Holders(store, panel, b)| <= |panel|
    ensures InSomeReference(store, panel, b) ==> |Holders(store, panel, b)| >= 1
  {
    if InSomeReference(store, panel, b) {
      var i :| 0 <= i < |panel| && b in store[panel[i]];
      assert panel[i] in Holders(store, panel, b);
    }
    if panel != [] {
      var front := panel[..|panel| - 1];
      assert Loaded(store, front);
      HoldersBounds(store, front, b);
      assert panel == front + [panel[|panel| - 1]];
      assert Holders(store, panel, b) <= Holders(store, front, b) + {panel[|panel| - 1]};
      SubsetCard(Holders(store, panel, b), Holders(store, front, b) + {panel[|panel| - 1]});
    }
  }

  lemma SubsetCard<T>(a: set<T>, b: set<T>)
    requires a <= b
    ensures |a| <= |b|
  {
    assert b == a + (b - a);
  }

  /** With distinct accessions, the dictionary count equals the row count. */
  lemma {:induction false} HoldersCountDistinct(store: Store, panel: seq<Accession>, b: Bin)
    requires Loaded(store, panel) && Distinct(panel)
    ensures |Holders(store, panel, b)| == CountIn(store, panel, b)
  {
    if panel != [] {
      var front := panel[..|panel| - 1];
      var last := panel[|panel| - 1];
      assert panel == front + [last];
      HoldersCountDistinct(store, front, b);
      assert last !in front;
      assert last !in Holders(store, front, b);
      if b in store[last] {
        assert Holders(store, panel, b) == Holders(store, front, b) + {last};
      } else {
        assert Holders(store, panel, b) == Holders(store, front, b);
      }
    }
  }

  /** All rows hold `b` exactly when the count reaches the panel size. */
  lemma {:induction false} CountInAll(store: Store, panel: seq<Accession>, b: Bin)
    requires Loaded(store, panel)
    ensures CountIn(store, panel, b) == |panel| <==> InEveryReference(store, panel, b)
  {
    if panel != [] {
      var front := panel[..|panel| - 1];
      CountInAll(store, front, b);
      assert InEveryReference(store, panel, b) <==>
        InEveryReference(store, front, b) && b in store[panel[|panel| - 1]] by {
        if InEveryReference(store, front, b) && b in store[panel[|panel| - 1]] {
          forall i | 0 <= i < |panel| ensures b in store[panel[i]] {
            if i < |panel| - 1 { assert panel[i] == front[i]; }
          }
        }
      }
    }
  }

  /** Some row holds `b` exactly when the count is positive. */
  lemma {:induction false} CountInSome(store: Store, panel: seq<Accession>, b: Bin)
    requires Loaded(store, panel)
    ensures CountIn(store, panel, b) > 0 <==> InSomeReference(store, panel, b)
  {
    if panel != [] {
      var front := panel[..|panel| - 1];
      CountInSome(store, front, b);
      assert InSomeReference(store, panel, b) <==>
        InSomeReference(store, front, b) || b in store[panel[|panel| - 1]] by {
        if InSomeReference(store, panel, b) {
          var i :| 0 <= i < |panel| && b in store[panel[i]];
          if i < |panel| - 1 { assert front[i] == panel[i]; }
        }
        if InSomeReference(store, front, b) {
          var i :| 0 <= i < |front| && b in store[front[i]];
          assert panel[i] == front[i];
        }
      }
    }
  }

  /** With distinct accessions each entry is the share of references holding the bin. */
  lemma {:induction false} FrequencyIsShare(store: Store, panel: seq<Accession>, b: Bin)
    requires Loaded(store, panel) && Distinct(panel)
    requires b in FrequencyIndex(store, panel)
    ensures FrequencyIndex(store, panel)[b] == (CountIn(store, panel, b) as real) / (|panel| as real)
  {
    HoldersCountDistinct(store, panel, b);
  }

  /** With distinct accessions an entry is exactly 1 iff every reference holds the bin. */
  lemma FrequencyOneIffEverywhere(store: Store, panel: seq<Accession>, b: Bin)
    requires Loaded(store, panel) && Distinct(panel)
    requires b in FrequencyIndex(store, panel)
    ensures FrequencyIndex(store, panel)[b] == 1.0 <==> InEveryReference(store, panel, b)
  {
    FrequencyIsShare(store, panel, b);
    CountInAll(store, panel, b);
    ShareIsOne(CountIn(store, panel, b) as real, |panel| as real);
  }

  lemma ShareIsOne(c: real, n: real)
    requires n > 0.0
    ensures c / n == 1.0 <==> c == n
  {
    if c / n == 1.0 {
      assert c == (c / n) * n;
    }
  }

  /** A repeated accession is counted once as a holder but twice in the row
      count, so a bin present in every row gets a share below 1. */
  lemma RepeatedAccessionHalves()
    ensures FrequencyIndex(map["A" := {7}], ["A", "A"])[7] == 0.5
  {
    var store := map["A" := {7}];
    var panel := ["A", "A"];
    assert 7 in store[panel[0]];
    assert Holders(store, panel, 7) == {"A"};
  }
}

=== FILE: pytext.dfy ===
/**
 The few Python string operations the argument handling relies on:
 `str.replace`, `str.split` on one separator character, and `int()` on a string.
 */
module PyText {
  import opened Wrappers

  /** Python's `s.replace(pat, rep)` for a non-empty pattern: scan from the
      left and replace every non-overlapping occurrence of `pat` by `rep`. */
  function Replace(s: string, pat: string, rep: string): string
    requires |pat| > 0
    decreases |s|
  {
    if |s| < |pat| then s
    else if s[..|pat|] == pat then rep + Replace(s[|pat|..], pat, rep)
    else [s[0]] + Replace(s[1..], pat, rep)
  }

  /** A string that misses one of the pattern's characters is left untouched. */
  lemma {:induction false} ReplaceAbsent(s: string, pat: string, rep: string, k: nat)
    requires k < |pat| && pat[k] !in s
    ensures Replace(s, pat, rep) == s
    decreases |s|
  {
    if |s| < |pat| {
    } else {
      assert s[..|pat|][k] == s[k];
      assert s[..|pat|] != pat;
      assert forall c :: c in s[1..] ==> c in s;
      ReplaceAbsent(s[1..], pat, rep, k);
    }
  }

  /** When the pattern's first character does not occur before it, a trailing
      occurrence of the pattern is the only one replaced. */
  lemma {:induction false} ReplaceTrailing(s: string, pat: string, rep: string)
    requires |pat| > 0 && pat[0] !in s
    ensures Replace(s + pat, pat, rep) == s + rep
    decreases |s|
  {
    var t := s + pat;
    if s == [] {
      assert t == pat;
      assert t[|pat|..] == [];
      assert Replace(t, pat, rep) == rep + Replace([], pat, rep);
    } else {
      assert t[..|pat|][0] == s[0];
      assert t[..|pat|] != pat;
      assert Replace(t, pat, rep) == [s[0]] + Replace(t[1..], pat, rep);
      assert t[1..] == s[1..] + pat;
      assert pat[0] !in s[1..] by {
        forall i | 0 <= i < |s[1..]| ensures s[1..][i] != pat[0] {
          assert s[1..][i] == s[i + 1];
        }
      }
      ReplaceTrailing(s[1..], pat, rep);
      assert [s[0]] + (s[1..] + rep) == s + rep;
    }
  }

  /** Python's `s.split(sep)`: the pieces between the occurrences of `sep`;
      there is always at least one piece. */
  function Split(s: string, sep: char): (r: seq<string>)
    ensures |r| >= 1
    ensures forall i :: 0 <= i < |r| ==> sep !in r[i]
  {
    if s == [] then [[]]
    else
      var rest := Split(s[1..], sep);
      if s[0] == sep then [[]] + rest
      else [[s[0]] + rest[0]] + rest[1..]
  }

  /** A string without the separator is a single piece. */
  lemma {:induction false} SplitNoSeparator(s: string, sep: char)
    requires sep !in s
    ensures Split(s, sep) == [s]
  {
    if s != [] {
      assert forall c :: c in s[1..] ==> c in s;
      SplitNoSeparator(s[1..], sep);
      assert [s[0]] + s[1..] == s;
    }
  }

  /** Without the separator there is exactly one piece. */
  lemma SplitCount(s: string, sep: char)
    ensures sep !in s ==> |Split(s, sep)| == 1
  {
    if sep !in s { SplitNoSeparator(s, sep); }
  }

  /** Splitting at the first separator: the text before it is the first piece. */
  lemma {:induction false} SplitFirst(a: string, sep: char, b: string)
    requires sep !in a
    ensures Split(a + [sep] + b, sep) == [a] + Split(b, sep)
  {
    if a == [] {
      assert a + [sep] + b == [sep] + b;
      assert ([sep] + b)[1..] == b;
    } else {
      assert (a + [sep] + b)[1..] == a[1..] + [sep] + b;
      assert forall c :: c in a[1..] ==> c in a;
      SplitFirst(a[1..], sep, b);
      assert [a[0]] + a[1..] == a;
    }
  }

  predicate IsDigit(c: char) {
    '0' <= c <= '9'
  }

  predicate AllDigits(s: string) {
    forall i :: 0 <= i < |s| ==> IsDigit(s[i])
  }

  /** The whitespace characters `int()` strips from both ends (ASCII only). */
  predicate IsSpace(c: char) {
    c == ' ' || c == '\t' || c == '\n' || c == '\r' || c == '\U{B}' || c == '\U{C}'
  }

  function StripLeft(s: string): (r: string)
    ensures |r| <= |s|
  {
    if s != [] && IsSpace(s[0]) then StripLeft(s[1..]) else s
  }

  function StripRight(s: string): (r: string)
    ensures |r| <= |s|
  {
    if s != [] && IsSpace(s[|s| - 1]) then StripRight(s[..|s| - 1]) else s
  }

  function Pow10(n: nat): (r: nat)
    ensures r >= 1
  {
    if n == 0 then 1 else 10 * Pow10(n - 1)
  }

  /** The value of a string of decimal digits, most significant first. */
  function DigitsValue(s: string): nat
    requires AllDigits(s)
  {
    if s == [] then 0
    else DigitsValue(s[..|s| - 1]) * 10 + ((s[|s| - 1] as int) - ('0' as int))
  }

  /** The decimal rendering of a natural number, without leading zeros. */
  function ShowNat(n: nat): (r: string)
    ensures |r| >= 1 && AllDigits(r)
  {
    if n < 10 then [(('0' as int) + n) as char]
    else ShowNat(n / 10) + [(('0' as int) + n % 10) as char]
  }

  lemma AllDigitsAppend(a: string, b: string)
    requires AllDigits(a) && AllDigits(b)
    ensures AllDigits(a + b)
  {
    forall i | 0 <= i < |a + b| ensures IsDigit((a + b)[i]) {
      if i < |a| { assert (a + b)[i] == a[i]; } else { assert (a + b)[i] == b[i - |a|]; }
    }
  }

  lemma ShiftStep(x: int, p: int, y: int, d: int)
    ensures (x * p + y) * 10 + d == x * (10 * p) + (y * 10 + d)
  {
  }

  /** Appending digits shifts the value left by their count. */
  lemma {:induction false} DigitsValueAppend(a: string, b: string)
    requires AllDigits(a) && AllDigits(b)
    ensures AllDigits(a + b)
    ensures DigitsValue(a + b) == DigitsValue(a) * Pow10(|b|) + DigitsValue(b)
    decreases |b|
  {
    AllDigitsAppend(a, b);
    if b == [] {
      assert a + b == a;
    } else {
      var b' := b[..|b| - 1];
      var d := (b[|b| - 1] as int) - ('0' as int);
      assert AllDigits(b');
      assert (a + b)[..|a + b| - 1] == a + b';
      assert (a + b)[|a + b| - 1] == b[|b| - 1];
      assert DigitsValue(a + b) == DigitsValue(a + b') * 10 + d;
      assert DigitsValue(b) == DigitsValue(b') * 10 + d;
      DigitsValueAppend(a, b');
      ShiftStep(DigitsValue(a), Pow10(|b'|), DigitsValue(b'), d);
    }
  }

  /** A string whose ends are not blank and which holds a character that is
      neither a digit nor a sign is not an integer. */
  lemma ParseIntRejects(s: string, k: nat)
    requires k < |s| && !IsDigit(s[k]) && s[k] != '-' && s[k] != '+'
    requires !IsSpace(s[0]) && !IsSpace(s[|s| - 1])
    ensures ParseInt(s) == Err(NotAnInteger(s))
  {
    assert StripRight(StripLeft(s)) == s;
    var digits := if s[0] == '-' || s[0] == '+' then s[1..] else s;
    if s[0] == '-' || s[0] == '+' {
      assert k > 0 && digits[k - 1] == s[k];
    } else {
      assert digits[k] == s[k];
    }
  }

  /** Reading back a rendered number gives the number. */
  lemma {:induction false} DigitsValueShowNat(n: nat)
    ensures DigitsValue(ShowNat(n)) == n
  {
    if n >= 10 {
      var s := ShowNat(n);
      assert s[..|s| - 1] == ShowNat(n / 10);
      DigitsValueShowNat(n / 10);
    }
  }

  datatype IntError = NotAnInteger(text: string)

  /** Python's `int(s)` on a string: surrounding whitespace, an optional sign,
      then one or more decimal digits; anything else raises ValueError. */
  function ParseInt(s: string): Result<int, IntError>
  {
    var t := StripRight(StripLeft(s));
    var negative := |t| > 0 && t[0] == '-';
    var digits := if |t| > 0 && (t[0] == '-' || t[0] == '+') then t[1..] else t;
    if |digits| > 0 && AllDigits(digits) then
      var v: int := DigitsValue(digits);
      Ok(if negative then -v else v)
    else Err(NotAnInteger(s))
  }

  /** A plain digit string reads as its decimal value. */
  lemma {:induction false} ParseIntDigits(d: string)
    requires |d| > 0 && AllDigits(d)
    ensures ParseInt(d) == Ok(DigitsValue(d))
  {
    assert !IsSpace(d[0]) && !IsSpace(d[|d| - 1]);
    assert StripLeft(d) == d;
    assert StripRight(d) == d;
    assert !(d[0] == '-' || d[0] == '+');
  }

  /** `int(str(n)) == n` for every natural number. */
  lemma ParseIntShowNat(n: nat)
    ensures ParseInt(ShowNat(n)) == Ok(n)
  {
    ParseIntDigits(ShowNat(n));
    DigitsValueShowNat(n);
  }
}

=== FILE: ranking.dfy ===
/**
 The importance ranking: each training column paired with its importance in
 percent, ordered from most to least important by a stable sort.
 */
module Ranking {
  import opened Orders
  import opened Panel
  import opened Features

  /** A column bin with its importance in percent. */
  datatype Scored = Scored(bin: Bin, importance: real)

  /** Pair each column with its importance, scaled from a fraction to percent. */
  function Pair(cols: seq<Bin>, importances: seq<real>): (r: seq<Scored>)
    requires |cols| == |importances|
    ensures |r| == |cols|
    ensures forall i :: 0 <= i < |r| ==> r[i].bin == cols[i] && r[i].importance == importances[i] * 100.0
    ensures StrictlyAscending(cols) ==> BinsAscending(r)
  {
    seq(|cols|, i requires 0 <= i < |cols| => Scored(cols[i], importances[i] * 100.0))
  }

  predicate NonIncreasing(s: seq<Scored>) {
    forall i, j :: 0 <= i < j < |s| ==> s[i].importance >= s[j].importance
  }

  /** Insert `x` before the first element that is not more important than it. */
  function InsertByImportance(x: Scored, s: seq<Scored>): seq<Scored> {
    if s == [] || x.importance >= s[0].importance then [x] + s
    else [s[0]] + InsertByImportance(x, s[1..])
  }

  /** Inserting adds exactly the one pair. */
  lemma {:induction false} InsertByImportanceElements(x: Scored, s: seq<Scored>)
    ensures multiset(InsertByImportance(x, s)) == multiset(s) + multiset{x}
  {
    if s != [] && x.importance < s[0].importance {
      InsertByImportanceElements(x, s[1..]);
      assert s == [s[0]] + s[1..];
    }
  }

  /** Every pair after inserting is `x` or a pair of `s`. */
  lemma InsertByImportanceFrom(x: Scored, s: seq<Scored>, i: nat)
    requires i < |InsertByImportance(x, s)|
    ensures InsertByImportance(x, s)[i] == x || exists k :: 0 <= k < |s| && s[k] == InsertByImportance(x, s)[i]
  {
    var t := InsertByImportance(x, s);
    InsertByImportanceElements(x, s);
    assert t[i] in multiset(s) + multiset{x};
    if t[i] != x {
      assert t[i] in s;
    }
  }

  /** Inserting into a non-increasing ranking keeps it non-increasing. */
  lemma {:induction false} InsertByImportanceOrders(x: Scored, s: seq<Scored>)
    requires NonIncreasing(s)
    ensures NonIncreasing(InsertByImportance(x, s))
  {
    var r := InsertByImportance(x, s);
    if s == [] || x.importance >= s[0].importance {
      forall i, j | 0 <= i < j < |r| ensures r[i].importance >= r[j].importance {
        assert r[j] == s[j - 1];
        if i > 0 { assert r[i] == s[i - 1]; }
      }
    } else {
      var tail := s[1..];
      var t := InsertByImportance(x, tail);
      InsertByImportanceOrders(x, tail);
      forall i | 0 <= i < |t| ensures s[0].importance >= t[i].importance {
        InsertByImportanceFrom(x, tail, i);
        if t[i] != x {
          var k :| 0 <= k < |tail| && tail[k] == t[i];
          assert s[k + 1] == t[i];
        }
      }
      forall i, j | 0 <= i < j < |r| ensures r[i].importance >= r[j].importance {
        assert r[j] == t[j - 1];
        if i > 0 { assert r[i] == t[i - 1]; }
      }
    }
  }

  /** Python's `sorted(pairs, key=importance, reverse=True)`: a stable sort from
      most to least important. */
  function RankByImportance(s: seq<Scored>): seq<Scored> {
    if s == [] then [] else InsertByImportance(s[0], RankByImportance(s[1..]))
  }

  /** The ranking rearranges the pairs from most to least important. */
  lemma {:induction false} RankByImportanceSorts(s: seq<Scored>)
    ensures NonIncreasing(RankByImportance(s))
    ensures multiset(RankByImportance(s)) == multiset(s)
  {
    if s != [] {
      RankByImportanceSorts(s[1..]);
      InsertByImportanceElements(s[0], RankByImportance(s[1..]));
      InsertByImportanceOrders(s[0], RankByImportance(s[1..]));
      assert s == [s[0]] + s[1..];
    }
  }

  /** The report order: more important first; equal importance, lower bin first. */
  predicate RankedBefore(x: Scored, y: Scored) {
    x.importance > y.importance || (x.importance == y.importance && x.bin < y.bin)
  }

  /** `Features.StrictlyAscending` on the pairs' bins, stated on the pairs directly
      so that the ranking lemmas need no projected sequence. */
  predicate BinsAscending(s: seq<Scored>) {
    forall i, j :: 0 <= i < j < |s| ==> s[i].bin < s[j].bin
  }

  /** Inserting an element whose bin is below every bin present keeps the report order. */
  lemma {:induction false} InsertKeepsRankOrder(x: Scored, t: seq<Scored>)
    requires StrictlyOrdered(t, RankedBefore)
    requires forall i :: 0 <= i < |t| ==> x.bin < t[i].bin
    ensures StrictlyOrdered(InsertByImportance(x, t), RankedBefore)
  {
    var r := InsertByImportance(x, t);
    if t == [] || x.importance >= t[0].importance {
      forall i, j | 0 <= i < j < |r| ensures RankedBefore(r[i], r[j]) {
        assert r[j] == t[j - 1];
        if i > 0 { assert r[i] == t[i - 1]; }
        else {
          assert RankedBefore(t[0], t[j - 1]) || j == 1;
        }
      }
    } else {
      var tail := t[1..];
      var u := InsertByImportance(x, tail);
      InsertKeepsRankOrder(x, tail);
      forall i | 0 <= i < |u| ensures RankedBefore(t[0], u[i]) {
        InsertByImportanceFrom(x, tail, i);
        if u[i] != x {
          var k :| 0 <= k < |tail| && tail[k] == u[i];
          assert t[k + 1] == u[i];
        }
      }
      forall i, j | 0 <= i < j < |r| ensures RankedBefore(r[i], r[j]) {
        assert r[j] == u[j - 1];
        if i > 0 { assert r[i] == u[i - 1]; }
      }
    }
  }

  /** The ranking is in report order when the columns come in ascending bin order:
      ties in importance keep ascending bin identifiers. */
  lemma {:induction false} RankingTiesKeepBinOrder(s: seq<Scored>)
    requires BinsAscending(s)
    ensures StrictlyOrdered(RankByImportance(s), RankedBefore)
  {
    if s != [] {
      var t := RankByImportance(s[1..]);
      RankingTiesKeepBinOrder(s[1..]);
      RankByImportanceSorts(s[1..]);
      forall i | 0 <= i < |t| ensures s[0].bin < t[i].bin {
        assert t[i] in multiset(s[1..]);
        var k :| 0 <= k < |s[1..]| && s[1..][k] == t[i];
        assert s[k + 1] == t[i];
      }
      InsertKeepsRankOrder(s[0], t);
    }
  }

  /** The ranking is the only arrangement of the pairs in report order. */
  lemma RankingIsUnique(s: seq<Scored>, r: seq<Scored>)
    requires BinsAscending(s)
    requires multiset(r) == multiset(s)
    requires StrictlyOrdered(r, RankedBefore)
    ensures r == RankByImportance(s)
  {
    RankingTiesKeepBinOrder(s);
    RankByImportanceSorts(s);
    var ranked := RankByImportance(s);
    assert forall x :: x in r <==> x in ranked by {
      assert forall x :: x in r <==> x in multiset(r);
      assert forall x :: x in ranked <==> x in multiset(ranked);
    }
    OrderedUnique(r, ranked, RankedBefore);
  }
}

=== FILE: report.dfy ===
/**
 The result tables: one annotated row per ranked bin (the full table), and the
 rows that pass the importance and TSS-distance cut-offs (the display table).
 */
module Report {
  import opened Orders
  import opened Panel
  import opened Features
  import opened Ranking
  import opened Genes

  /** A bin's genomic region as reported by the binner. */
  datatype Region = Region(chrom: string, start: int, end: int)

  /** One row of the result table. */
  datatype ReportRow = ReportRow(
    bin: Bin,
    importance: real,
    region: Region,
    geneSymbol: string,
    distTss: int,
    overlap: bool,
    distTts: int,
    strand: Strand,
    description: string)

  /** The bin has a region whose chromosome has at least one listed gene. */
  predicate CanAnnotate(b: Bin, regions: map<Bin, Region>, rows: seq<GeneRow>, allowed: set<string>) {
    b in regions && |GeneList(rows, allowed, regions[b].chrom)| > 0
  }

  /** The row of one ranked bin: its region and the gene annotation of that region. */
  function RowFor(entry: Scored, regions: map<Bin, Region>, rows: seq<GeneRow>, allowed: set<string>): ReportRow
    requires CanAnnotate(entry.bin, regions, rows, allowed)
  {
    var region := regions[entry.bin];
    var a := Annotate(GeneList(rows, allowed, region.chrom), region.start, region.end);
    ReportRow(entry.bin, entry.importance, region, a.gene.symbol, a.distTss, a.overlap, a.distTts,
              a.gene.strand, a.gene.description)
  }

  /** A row is displayed when its importance reaches the threshold and, if the
      TSS cut-off is positive, its TSS distance lies within the cut-off. */
  predicate Shown(row: ReportRow, threshold: real, tssCutoff: int) {
    (tssCutoff <= 0 || Abs(row.distTss) <= tssCutoff) && row.importance >= threshold
  }

  /** A bin lying inside a gene body can still be hidden by the TSS cut-off,
      because the row carries the midpoint distance and not 0. */
  lemma OverlapRowCanBeHidden()
    ensures var a := Annotate([GeneLoc("g", 0, 100000, 0, Plus, "G", "")], 50000, 55000);
            var row := ReportRow(1, 50.0, Region("chr1", 50000, 55000), a.gene.symbol, a.distTss, a.overlap,
                                 a.distTts, a.gene.strand, a.gene.description);
            row.overlap && !Shown(row, 1.0, 1000)
  {
    OverlapDistanceFromMidpoint();
  }

  /** The displayed rows of a table, in table order. */
  function ShownRows(full: seq<ReportRow>, threshold: real, tssCutoff: int): seq<ReportRow> {
    if full == [] then []
    else
      var front := full[..|full| - 1];
      var last := full[|full| - 1];
      ShownRows(front, threshold, tssCutoff) + (if Shown(last, threshold, tssCutoff) then [last] else [])
  }

  /** The display table holds exactly the shown rows of the full table, and is no longer. */
  lemma {:induction false} ShownRowsMembers(full: seq<ReportRow>, threshold: real, tssCutoff: int)
    ensures forall x :: x in ShownRows(full, threshold, tssCutoff) <==> x in full && Shown(x, threshold, tssCutoff)
    ensures |ShownRows(full, threshold, tssCutoff)| <= |full|
  {
    if full != [] {
      var front := full[..|full| - 1];
      var last := full[|full| - 1];
      assert full == front + [last];
      ShownRowsMembers(front, threshold, tssCutoff);
    }
  }

  /** Filtering keeps table order: filtering a concatenation concatenates the filtered parts. */
  lemma {:induction false} ShownRowsAppend(a: seq<ReportRow>, b: seq<ReportRow>, threshold: real, tssCutoff: int)
    ensures ShownRows(a + b, threshold, tssCutoff) == ShownRows(a, threshold, tssCutoff) + ShownRows(b, threshold, tssCutoff)
    decreases |b|
  {
    if b == [] {
      assert a + b == a;
    } else {
      var b' := b[..|b| - 1];
      assert (a + b)[..|a + b| - 1] == a + b';
      assert (a + b)[|a + b| - 1] == b[|b| - 1];
      ShownRowsAppend(a, b', threshold, tssCutoff);
    }
  }

  /** Appending a row extends the displayed rows by that row exactly when it is shown. */
  lemma ShownRowsSnoc(full: seq<ReportRow>, row: ReportRow, threshold: real, tssCutoff: int)
    ensures ShownRows(full + [row], threshold, tssCutoff) ==
      ShownRows(full, threshold, tssCutoff) + (if Shown(row, threshold, tssCutoff) then [row] else [])
  {
    assert (full + [row])[..|full|] == full;
  }

  /** The row of every ranked bin, in ranking order. */
  function FullTable(ranked: seq<Scored>, regions: map<Bin, Region>, rows: seq<GeneRow>, allowed: set<string>): (t: seq<ReportRow>)
    requires forall i :: 0 <= i < |ranked| ==> CanAnnotate(ranked[i].bin, regions, rows, allowed)
    ensures |t| == |ranked|
    ensures forall i :: 0 <= i < |ranked| ==> t[i] == RowFor(ranked[i], regions, rows, allowed)
  {
    seq(|ranked|, i requires 0 <= i < |ranked| => RowFor(ranked[i], regions, rows, allowed))
  }

  /** Walk the table once: every row goes to the full table; a row also goes
      to the display table unless a cut-off rejects it. */
  method SplitTable(table: seq<ReportRow>, threshold: real, tssCutoff: int)
    returns (full: seq<ReportRow>, display: seq<ReportRow>)
    ensures full == table
    ensures display == ShownRows(table, threshold, tssCutoff)
  {
    full := [];
    display := [];
    var i := 0;
    while i < |table|
      invariant 0 <= i <= |table|
      invariant full == table[..i]
      invariant display == ShownRows(full, threshold, tssCutoff)
    {
      var row := table[i];
      ShownRowsSnoc(full, row, threshold, tssCutoff);
      assert table[..i + 1] == full + [row];
      full := full + [row];
      i := i + 1;
      if tssCutoff > 0 && Abs(row.distTss) > tssCutoff {
        assert !Shown(row, threshold, tssCutoff);
        continue;
      }
      if row.importance < threshold {
        continue;
      }
      assert Shown(row, threshold, tssCutoff);
      display := display + [row];
    }
    assert table[..i] == table;
  }

  /** Every ranked bin gets its annotated row in the full table, in ranking
      order; the display table keeps the rows no cut-off rejects. */
  method BuildTables(ranked: seq<Scored>, regions: map<Bin, Region>, rows: seq<GeneRow>, allowed: set<string>,
                     threshold: real, tssCutoff: int)
    returns (full: seq<ReportRow>, display: seq<ReportRow>)
    requires forall i :: 0 <= i < |ranked| ==> CanAnnotate(ranked[i].bin, regions, rows, allowed)
    ensures |full| == |ranked|
    ensures forall i :: 0 <= i < |ranked| ==> full[i] == RowFor(ranked[i], regions, rows, allowed)
    ensures display == ShownRows(full, threshold, tssCutoff)
  {
    full, display := SplitTable(FullTable(ranked, regions, rows, allowed), threshold, tssCutoff);
  }

  /** Every bin of a rearrangement of the pairs is one of the columns. */
  lemma RankedBinsAreColumns(columns: seq<Bin>, importances: seq<real>, ranked: seq<Scored>)
    requires |importances| == |columns|
    requires multiset(ranked) == multiset(Pair(columns, importances))
    ensures forall i :: 0 <= i < |ranked| ==> ranked[i].bin in columns
  {
    var pairs := Pair(columns, importances);
    forall i | 0 <= i < |ranked| ensures ranked[i].bin in columns {
      assert ranked[i] in multiset(pairs);
      var k :| 0 <= k < |pairs| && pairs[k] == ranked[i];
      assert ranked[i].bin == columns[k];
    }
  }

  /** From the trained model's per-column importances to the ranking and both tables. */
  method Explain(columns: seq<Bin>, importances: seq<real>, regions: map<Bin, Region>, rows: seq<GeneRow>,
                 allowed: set<string>, threshold: real, tssCutoff: int)
    returns (ranked: seq<Scored>, full: seq<ReportRow>, display: seq<ReportRow>)
    requires |importances| == |columns| && StrictlyAscending(columns)
    requires forall b :: b in columns ==> CanAnnotate(b, regions, rows, allowed)
    ensures multiset(ranked) == multiset(Pair(columns, importances))
    ensures forall i :: 0 <= i < |ranked| ==> ranked[i].bin in columns
    ensures NonIncreasing(ranked) && StrictlyOrdered(ranked, RankedBefore)
    ensures |full| == |ranked|
    ensures forall i :: 0 <= i < |ranked| ==> full[i] == RowFor(ranked[i], regions, rows, allowed)
    ensures display == ShownRows(full, threshold, tssCutoff)
  {
    var pairs := Pair(columns, importances);
    ranked := RankByImportance(pairs);
    RankByImportanceSorts(pairs);
    RankingTiesKeepBinOrder(pairs);
    RankedBinsAreColumns(columns, importances, ranked);
    full, display := BuildTables(ranked, regions, rows, allowed, threshold, tssCutoff);
  }
}

=== FILE: wrappers.dfy ===
/** Failure-aware wrappers shared by every module of the model. */
module Wrappers {

  /** A value that may be missing (a NaN cell of a table, a search that found nothing). */
  datatype Option<+T> = None | Some(value: T)

  /** The outcome of an operation that can stop the analysis with an error. */
  datatype Result<+T, +E> = Ok(value: T) | Err(error: E)
}
